=== FILE: README.md ===
# mknapsack: parser, evaluator and logger

This project models the core of the mknapsack solver, a browser tool for
the multidimensional knapsack problem. It covers three parts:

- **The OR-Library parser** (`ORParser`, built on `Text` and `Decimal`).
  - `parse` cuts the problem file into whitespace-separated tokens and
    reads them as integers.
  - `parseTokens` reads the problem count, then one block per problem:
    `N M optimal`, the `N` profits, `M` weight rows of `N` entries, and
    the `M` bag limits.
  - `reorderProblemsDataStructure` regroups each block into one
    constraint per weight row, each holding its bag limit.
  - `ORFormat` writes problems back out in the same layout. The parser
    is proved to read that output back exactly, whatever whitespace
    separates the numbers (`ORFormat.ParseAnyLayout`).
- **The evaluator** (`Genetic`). `EvaluationModule.evaluate` adds up the
  profits of the items whose solution entry is exactly 1. It never reads
  `problem.constraints`, so an overweight selection scores its full
  profit.
- **The logger** (`Logger`). `log(msg, args...)` replaces the leftmost
  `{}` once per argument, using JavaScript's `String.replace` with a
  string pattern, including its `$` replacement patterns. It then writes
  the line to a text buffer, at the end or, when the logger is reversed,
  at the front. `clear` empties the buffer.

Knapsack data lives in `Knapsack`. `Results` holds the `Option` and
`Result` types.

## Model

| member | source | states |
|---|---|---|
| Text.Tokenize | javascripts/orparser.js:34 | every match of `\S+` is a non-empty run without whitespace, and the matches together hold exactly the non-whitespace characters of the input, in order |
| Text.TokenizeSpread | javascripts/orparser.js:34 | tokens laid out with any whitespace (non-empty between neighbours) are matched back as exactly those tokens |
| Text.WhitespaceInsensitive | javascripts/orparser.js:34 | two layouts of the same tokens tokenise alike, whatever kind and amount of whitespace separates them |
| Decimal.ParseInt | javascripts/orparser.js:137-139 | a token has an integer value exactly when it is an optional sign followed by at least one decimal digit |
| Decimal.Show | javascripts/logger.js:38 | a number inserted into a log line is written as JavaScript writes it: its decimal text reads back as the number, carries `-` exactly when the number is negative, never carries `+`, and starts with the digit 0 only when it is "0" |
| ORParser.ToInts | javascripts/orparser.js:137-139 | converting the tokens succeeds exactly when each is a decimal integer, and keeps their order and values; otherwise it names the first token that is not one |
| ORParser.Token | javascripts/orparser.js:137-139 | a token read at index `i` exists exactly when `i` is in range, and it is the token there; otherwise the failure names `i` |
| ORParser.ReadRange | javascripts/orparser.js:71-73 | reading `count` tokens from a cursor succeeds exactly when they all exist (or `count <= 0`); entry `k` is token `from + k`; a failure names the first missing index |
| ORParser.ReadRows | javascripts/orparser.js:78-84 | `M` rows of `N` tokens are read exactly when `N * M` tokens exist after the cursor; each row has `N` entries; the rows laid end to end are that stretch of tokens |
| ORParser.BlockWeightAt | javascripts/orparser.js:81 | weight `j` of row `k` is the token at `i + 3 + N + k * N + j` |
| ORParser.ReadBlock | javascripts/orparser.js:53-93 | a block is read exactly when every token it needs exists; its header, profits, weight rows and bag limits sit where the block layout puts them; the cursor moves by `3 + N + N * M + M` |
| ORParser.ReadBlocks | javascripts/orparser.js:51-98 | reading `count` blocks gives `count` blocks, each with `M` rows of `N` weights and `M` bag limits, or names a missing token |
| ORParser.StartStep | javascripts/orparser.js:75-93 | each block begins where the previous block's last bag limit ends |
| ORParser.ReadBlocksOk | javascripts/orparser.js:51-98 | reading the blocks succeeds exactly when every block, at its computed start, can be read |
| ORParser.ReadBlocksAt | javascripts/orparser.js:51-98 | block `p` of the result is the block found at the `p`-th start |
| ORParser.ReorderRoundTrip | javascripts/orparser.js:104-125 | regrouping loses nothing: a regrouped block is well-formed, has one constraint per weight row, and splits back into the same block |
| ORParser.ReorderInverse | javascripts/orparser.js:104-125 | splitting a well-formed problem into a block and regrouping it gives the problem back |
| ORParser.ToProblem | javascripts/orparser.js:108-120 | the regrouped problem keeps optimal and profits and has one constraint per weight row, constraint `k` holding weight row `k` and bag limit `k` |
| ORParser.Reorder | javascripts/orparser.js:104-125 | the problem list has one problem per block, in order; optimal and profits are kept; constraint `k` pairs bag limit `k` with weight row `k` |
| ORParser.ParseTokens | javascripts/orparser.js:43-102 | no tokens is an error of its own; otherwise the result holds as many problems as the first token says (none if it is not positive), all well-formed, or names a missing token |
| ORParser.ParseTokensBlocks | javascripts/orparser.js:43-102 | parsing succeeds exactly when all announced blocks can be read, and problem `p` is the block at the `p`-th start |
| ORParser.ParseText | javascripts/orparser.js:34-36 | the no-tokens failure happens exactly for input without a non-whitespace character; every problem of a successful parse is well-formed |
| ORParser.Parse | javascripts/orparser.js:28-41 | empty input returns nothing and leaves the parser alone; otherwise the stored problems are replaced by the returned ones, or by none when parsing stops; a non-empty all-whitespace input stops for lack of tokens, and only such input does |
| ORParser.ParseIgnoresLayout | javascripts/orparser.js:28-41 | the parse of a file depends only on its tokens, not on its whitespace |
| ORFormat.BlockAtUnique | javascripts/orparser.js:53-93 | the tokens at a cursor determine the block read there |
| ORFormat.ReadBlockEncoded | javascripts/orparser.js:53-93 | reading an encoded problem gives back its block and moves the cursor just past it |
| ORFormat.ReadBlocksEncoded | javascripts/orparser.js:51-98 | reading the blocks of an encoded problem list gives back every block, in order |
| ORFormat.ParseTokensEncode | javascripts/orparser.js:43-102 | parsing the tokens of an encoded list of well-formed problems gives the list back, whatever tokens follow |
| ORFormat.ToIntsWords | javascripts/orparser.js:137-139 | the decimal texts of integers convert back to those integers |
| ORFormat.ParseAnyLayout | javascripts/orparser.js:28-41 | for every list of well-formed problems and every separating layout of its numbers, parsing stores and returns exactly that list |
| ORFormat.ParseFormat | javascripts/orparser.js:28-41 | parsing a written-out problem file stores and returns exactly the problems written |
| Genetic.Evaluate | javascripts/genetic.js:13-23 | for any solution with no 1 past the end of the profit list, the fitness is the sum of the profits at the positions holding exactly 1; it is never negative when no profit is |
| Genetic.SelectedProfitSnoc | javascripts/genetic.js:16-20 | one more position adds exactly its profit when it holds 1, and nothing otherwise |
| Genetic.NothingSelected | javascripts/genetic.js:13-23 | a solution with no entry equal to 1 scores 0 |
| Genetic.ProfitNonNegative | javascripts/genetic.js:13-23 | non-negative profits give a non-negative fitness |
| Genetic.SelectedProfitUpdate | javascripts/genetic.js:16-20 | changing one entry changes the fitness by exactly the difference of that position's contributions |
| Genetic.ClearBit | javascripts/genetic.js:17-19 | deselecting an item lowers the fitness by exactly its profit |
| Genetic.SetBit | javascripts/genetic.js:17-19 | selecting an item of non-negative profit never lowers the fitness, and raises it by exactly its profit if it was not selected |
| Genetic.UnselectedIgnored | javascripts/genetic.js:17-19 | entries other than 1 are interchangeable: only the value 1 selects |
| Genetic.SameSelection | javascripts/genetic.js:17-19 | the fitness depends only on which positions hold 1 |
| Genetic.OverweightScoresProfit | javascripts/genetic.js:13-23 | for every problem and every selection whose load on some constraint exceeds its bag limit, the score is still the selected profit and is non-negative when the profits are, so no penalty value such as -1 comes out |
| Logger.HandleObject | javascripts/logger.js:45-52 | an object becomes its JSON text, any other value passes through unchanged, and no object is left |
| Logger.Find | javascripts/logger.js:38 | the match is the leftmost `{}` in the line, or none when the line has none |
| Logger.Expand | javascripts/logger.js:38 | an argument without `$` is inserted literally |
| Logger.ExpandPlainStep | javascripts/logger.js:38 | a character other than `$` is copied, and the rest of the argument is expanded after it; with the next two rows this fixes the expansion of every argument |
| Logger.ExpandPatterns | javascripts/logger.js:38 | at the head of the rest of an argument, `$$` becomes `$`, `$&` the matched `{}`, `` $` `` the text before the match and `$'` the text after it |
| Logger.ExpandLoneDollar | javascripts/logger.js:38 | a `$` followed by any other character, or at the end of the argument, stands for itself |
| Logger.ReplaceFirst | javascripts/logger.js:38 | a line without `{}` is unchanged; otherwise, for every argument, the text before the leftmost `{}` and the text after it are kept, and a `$`-free argument lands between them literally |
| Logger.FillAppend | javascripts/logger.js:36-39 | arguments act in order: the last one replaces within the line all earlier ones produced |
| Logger.Fill | javascripts/logger.js:36-39 | the arguments replace one `{}` each, in turn; on a line with no `{}` left, any further arguments change nothing |
| Logger.FillRescans | javascripts/logger.js:36-39 | for all lines and `$`-free arguments: a `{}` that the first argument brings in is filled by the second argument, inside the first, before any `{}` further on in the message |
| Logger.FillTemplate | javascripts/logger.js:36-39 | with arguments that are non-empty and hold no brace or `$`, the placeholders of a message are filled left to right; surplus arguments are dropped and surplus placeholders stay |
| Logger.RenderCount | javascripts/logger.js:36-39 | with `c` placeholders and `n` such arguments, exactly `c - min(c, n)` placeholders remain |
| Logger.Log | javascripts/logger.js:31-43 | a message without arguments, or without any `{}`, is written unchanged; the reverse flag is kept |
| Logger.LogValue | javascripts/logger.js:31-43 | a message that is not a string, logged without arguments, is written as its JSON text for an object and its decimal text for a number; a string is written as `log` writes it |
| Logger.LogTemplate | javascripts/logger.js:31-43 | logging a template message with such arguments writes the template with its placeholders filled in order |
| Logger.NewLogger | javascripts/logger.js:22-25 | a new logger keeps its target's text and is not reversed |
| Logger.SetReverse | javascripts/logger.js:27-29 | only the flag changes; the text is kept |
| Logger.WriteOut | javascripts/logger.js:54-60 | the line and a newline join the text, in front of it when reversed and after it otherwise, with the old text intact |
| Logger.Clear | javascripts/logger.js:62-64 | the text is emptied and the flag kept |
| Logger.WriteAllOrder | javascripts/logger.js:54-60 | written lines follow the old text in order or, when reversed, precede it newest first |
| Logger.ClearThenWrite | javascripts/logger.js:54-64 | after `clear`, a written line is the whole text, in either mode |
| Logger.SetReverseThenWrite | javascripts/logger.js:27-29 | `setReverse` keeps the text and decides whether the next line goes to its front or its end |

## Left out

- `main.js`, `stopwatch.js` and `Gruntfile.js` are not part of this model: page wiring, timing and the build.
- The parser's log calls and `logProblems` are left out: they only write to the logger, which is modelled on its own.
- The timing in `parse` is left out, because it reads the clock.
- The jQuery target of the logger becomes a plain string buffer, and `clear` empties it.
- `PopulationModule`, `ReproductionModule` and the `Genetic` controller are left out. They are empty, or only loop and log; `startSolving` never calls `evaluate`.
- ORParser.ToInts: tokens are converted to integers all at once, before blocks are read, using a strict decimal reader.
  - The source converts each token when it is read, using the lenient `parseInt(token, 10)`.
  - The model therefore rejects a malformed token anywhere, including one past the last block.
  - It also rejects a token that only starts with digits, such as `3.5`, which `parseInt` would read as 3.
- ORParser.ParseTokens: a missing token is an error (`MissingToken`). In the source it reads as `NaN`, and the parse carries on with `NaN` values.
- ORParser.ParseTokens: the source compares the problem count as a raw token string. The model uses the integer value of the token.
- The whitespace-only input is modelled as `Thrown(NoTokens)`. In the source, matching finds nothing there and reading the first token throws a `TypeError`.
- Numbers are unbounded integers. JavaScript's double precision and its exponent notation for large numbers in `String(n)` are left out.
- Genetic.Evaluate: requires that no entry past the end of the profit list is exactly 1. For such an entry the source adds `undefined` and gets `NaN`, which the model does not represent. Entries past the end that are not 1 are skipped, as in the source.
- ORParser.Parse: when any token is not a decimal integer, or a block needs a token past the end, the model stops with `Thrown` and stores no problems. The source's `parse` does not throw there; it completes and stores what it read, with these differences.
  - A token it reads that is missing, or has no numeric prefix, becomes `NaN`.
  - A token with a numeric prefix, such as `3.5`, reads as that prefix.
  - A token that no block reads is never converted, so trailing text after the last block is ignored.
  - When the count token is not a positive number, the loop does not run and `[]` is returned.
  - Only the whitespace-only input throws in the source.
- Logger.Log: a message that is not a string, logged together with arguments, is not modelled. In the source, `replace` does not exist on such a value and the call throws. The same message logged without arguments is modelled by `Logger.LogValue`.
- Logger.HandleObject: the text `JSON.stringify` produces is taken as given with the object. Booleans, `undefined` and other values are not modelled.
- Logger.FillTemplate: the in-order filling is proved only for arguments that are non-empty and hold no brace and no `$`.
  - Other arguments can create or destroy placeholders. For example, message `{{}}` with argument `""` leaves `{}` behind.
  - `Logger.FillRescans` states how a `{}` brought in by an argument is filled.

=== FILE: decimal.dfy ===
/**
  Decimal integers as the problem file writes them, and as a number is
  turned into text when the logger inserts it into a line.
 */
module Decimal {
  import opened Results
  import Text

  predicate IsDigit(c: char) {
    '0' <= c <= '9'
  }

  ghost predicate AllDigits(ds: string) {
    forall i :: 0 <= i < |ds| ==> IsDigit(ds[i])
  }

  /** A well-formed decimal integer: an optional sign, then at least one digit. */
  ghost predicate IsDecimal(s: string) {
    if |s| > 0 && (s[0] == '-' || s[0] == '+') then |s| > 1 && AllDigits(s[1..])
    else |s| > 0 && AllDigits(s)
  }

  function DigitValue(c: char): (d: nat)
    requires IsDigit(c)
    ensures d < 10
  {
    (c as int) - ('0' as int)
  }

  function DigitChar(d: nat): (c: char)
    requires d < 10
    ensures IsDigit(c) && DigitValue(c) == d
  {
    (('0' as int) + d) as char
  }

  /** The value of a digit string, most significant digit first. */
  function DigitsValue(ds: string): nat
    requires AllDigits(ds)
  {
    if |ds| == 0 then 0
    else DigitsValue(ds[..|ds| - 1]) * 10 + DigitValue(ds[|ds| - 1])
  }

  /** Base-10 reading of a whole token (what `parseInt(token, 10)` yields
      for a well-formed decimal token); `None` for anything else. */
  function ParseInt(s: string): (r: Option<int>)
    ensures r.Some? <==> IsDecimal(s)
  {
    if |s| == 0 then None
    else if s[0] == '-' || s[0] == '+' then
      if |s| > 1 && forall i | 1 <= i < |s| :: IsDigit(s[i]) then
        var magnitude: int := DigitsValue(s[1..]);
        Some(if s[0] == '-' then -magnitude else magnitude)
      else None
    else if forall i | 0 <= i < |s| :: IsDigit(s[i]) then Some(DigitsValue(s))
    else None
  }

  /** Digits of a natural number, without leading zeros. */
  function ShowNat(n: nat): (ds: string)
    ensures |ds| > 0 && AllDigits(ds)
    ensures DigitsValue(ds) == n
    ensures ds[0] == '0' ==> ds == "0"
  {
    if n < 10 then [DigitChar(n)]
    else
      var ds := ShowNat(n / 10) + [DigitChar(n % 10)];
      assert ds[..|ds| - 1] == ShowNat(n / 10);
      ds
  }

  /** JavaScript's `String(n)` for an integer `n`: it reads back as `n`,
      carries a sign only when `n` is negative, never a `+`, and starts
      with the digit 0 only when it is "0". */
  function Show(n: int): (s: string)
    ensures IsDecimal(s)
    ensures ParseInt(s) == Some(n)
    ensures s[0] != '+'
    ensures s[0] == '-' <==> n < 0
    ensures s[0] == '0' ==> s == "0"
    ensures n < 0 ==> s[1] != '0'
  {
    if n < 0 then
      var ds := ShowNat(-n);
      var s := "-" + ds;
      assert s[1..] == ds;
      s
    else
      var ds := ShowNat(n);
      assert IsDigit(ds[0]);
      ds
  }

  /** What `Show` writes is one whitespace-free token. */
  lemma ShowIsToken(n: int)
    ensures Text.IsToken(Show(n))
  {
    var s := Show(n);
    forall i | 0 <= i < |s| ensures !Text.IsSpace(s[i]) {
      if n < 0 && i == 0 {
        assert s[0] == '-';
      } else if n < 0 {
        assert s[i] == ShowNat(-n)[i - 1];
        assert IsDigit(s[i]);
      } else {
        assert IsDigit(s[i]);
      }
    }
  }
}

=== FILE: genetic.dfy ===
/**
  The evaluation module of the genetic solver (javascripts/genetic.js).

  A solution is a vector with one entry per item; an item is selected
  when its entry is exactly 1. The fitness is the total profit of the
  selected items. The constraints of the problem are not consulted, so an
  overweight selection scores its full profit.
 */
module Genetic {
  import opened Knapsack

  /** What one position adds: its profit when its entry is exactly 1. */
  function Gain(bit: int, profit: int): int {
    if bit == 1 then profit else 0
  }

  /** No entry past the end of the profit list selects an item: `evaluate`
      reads `profits[i]` only where `solution[i] === 1`, so entries there
      are skipped as long as none of them is 1. */
  ghost predicate NoneBeyond(solution: seq<int>, profits: seq<int>) {
    forall i :: |profits| <= i < |solution| ==> solution[i] != 1
  }

  /** Reference definition: the profits of the selected items, summed
      from the first position on. */
  function SelectedProfit(solution: seq<int>, profits: seq<int>): int
    requires NoneBeyond(solution, profits)
  {
    if |solution| == 0 || |profits| == 0 then 0
    else
      assert NoneBeyond(solution[1..], profits[1..]) by {
        forall i | |profits[1..]| <= i < |solution[1..]| ensures solution[1..][i] != 1 {
          assert solution[1..][i] == solution[i + 1];
        }
      }
      Gain(solution[0], profits[0]) + SelectedProfit(solution[1..], profits[1..])
  }

  ghost predicate NonNegative(xs: seq<int>) {
    forall i :: 0 <= i < |xs| ==> xs[i] >= 0
  }

  /** Adding one position at the end adds exactly that position's gain,
      and nothing past the end of the profit list. */
  lemma {:induction false} SelectedProfitSnoc(solution: seq<int>, profits: seq<int>, bit: int)
    requires NoneBeyond(solution, profits)
    requires |solution| >= |profits| ==> bit != 1
    ensures NoneBeyond(solution + [bit], profits)
    ensures SelectedProfit(solution + [bit], profits)
            == SelectedProfit(solution, profits) + (if |solution| < |profits| then Gain(bit, profits[|solution|]) else 0)
    decreases |solution|
  {
    var s := solution + [bit];
    assert NoneBeyond(s, profits) by {
      forall i | |profits| <= i < |s| ensures s[i] != 1 {
        if i < |solution| {
          assert s[i] == solution[i];
        }
      }
    }
    if |solution| > 0 && |profits| > 0 {
      assert s[1..] == solution[1..] + [bit];
      assert NoneBeyond(solution[1..], profits[1..]) by {
        forall i | |profits[1..]| <= i < |solution[1..]| ensures solution[1..][i] != 1 {
          assert solution[1..][i] == solution[i + 1];
        }
      }
      SelectedProfitSnoc(solution[1..], profits[1..], bit);
    } else if |solution| == 0 && |profits| > 0 {
      assert s[1..] == [];
    }
  }

  /** `evaluate`: one left-to-right pass adding `profits[i]` wherever
      `solution[i] === 1`. The result is the selected profit, and it is
      never negative when no profit is. */
  method Evaluate(solution: seq<int>, problem: Problem) returns (fitness: int)
    requires NoneBeyond(solution, problem.profits)
    ensures fitness == SelectedProfit(solution, problem.profits)
    ensures NonNegative(problem.profits) ==> fitness >= 0
  {
    fitness := 0;
    for i := 0 to |solution|
      invariant NoneBeyond(solution[..i], problem.profits)
      invariant fitness == SelectedProfit(solution[..i], problem.profits)
    {
      assert solution[..i + 1] == solution[..i] + [solution[i]];
      SelectedProfitSnoc(solution[..i], problem.profits, solution[i]);
      if solution[i] == 1 {
        fitness := fitness + problem.profits[i];
      }
    }
    assert solution[..|solution|] == solution;
    if NonNegative(problem.profits) {
      ProfitNonNegative(solution, problem.profits);
    }
  }

  /** With no position equal to 1 (the empty and the all-zero solution
      among them) the profit is 0. */
  lemma {:induction false} NothingSelected(solution: seq<int>, profits: seq<int>)
    requires forall i :: 0 <= i < |solution| ==> solution[i] != 1
    ensures NoneBeyond(solution, profits)
    ensures SelectedProfit(solution, profits) == 0
    decreases |solution|
  {
    if |solution| > 0 && |profits| > 0 {
      NothingSelected(solution[1..], profits[1..]);
    }
  }

  /** Non-negative profits give a non-negative result. */
  lemma {:induction false} ProfitNonNegative(solution: seq<int>, profits: seq<int>)
    requires NoneBeyond(solution, profits)
    requires NonNegative(profits)
    ensures SelectedProfit(solution, profits) >= 0
    decreases |solution|
  {
    if |solution| > 0 && |profits| > 0 {
      assert NonNegative(profits[1..]) by {
        forall i | 0 <= i < |profits[1..]| ensures profits[1..][i] >= 0 {
          assert profits[1..][i] == profits[i + 1];
        }
      }
      ProfitNonNegative(solution[1..], profits[1..]);
    }
  }

  /** Changing one entry that has a profit changes the result by exactly
      the difference of that position's gains. */
  lemma {:induction false} SelectedProfitUpdate(solution: seq<int>, profits: seq<int>, i: int, v: int)
    requires NoneBeyond(solution, profits)
    requires 0 <= i < |solution| && i < |profits|
    ensures NoneBeyond(solution[i := v], profits)
    ensures SelectedProfit(solution[i := v], profits)
            == SelectedProfit(solution, profits) - Gain(solution[i], profits[i]) + Gain(v, profits[i])
    decreases i
  {
    if i > 0 {
      assert solution[i := v][1..] == solution[1..][i - 1 := v];
      SelectedProfitUpdate(solution[1..], profits[1..], i - 1, v);
    }
  }

  /** Clearing a selected item lowers the result by exactly its profit. */
  lemma ClearBit(solution: seq<int>, profits: seq<int>, i: int)
    requires NoneBeyond(solution, profits)
    requires 0 <= i < |solution| && solution[i] == 1
    ensures i < |profits|
    ensures NoneBeyond(solution[i := 0], profits)
    ensures SelectedProfit(solution[i := 0], profits) == SelectedProfit(solution, profits) - profits[i]
  {
    SelectedProfitUpdate(solution, profits, i, 0);
  }

  /** Selecting an item of non-negative profit never lowers the result. */
  lemma SetBit(solution: seq<int>, profits: seq<int>, i: int)
    requires NoneBeyond(solution, profits)
    requires 0 <= i < |solution| && i < |profits| && profits[i] >= 0
    ensures NoneBeyond(solution[i := 1], profits)
    ensures SelectedProfit(solution[i := 1], profits) >= SelectedProfit(solution, profits)
    ensures solution[i] != 1 ==> SelectedProfit(solution[i := 1], profits) == SelectedProfit(solution, profits) + profits[i]
  {
    SelectedProfitUpdate(solution, profits, i, 1);
  }

  /** The result depends only on which positions hold 1. */
  lemma {:induction false} SameSelection(s1: seq<int>, s2: seq<int>, profits: seq<int>)
    requires |s1| == |s2| && NoneBeyond(s1, profits)
    requires forall i :: 0 <= i < |s1| ==> (s1[i] == 1 <==> s2[i] == 1)
    ensures NoneBeyond(s2, profits)
    ensures SelectedProfit(s1, profits) == SelectedProfit(s2, profits)
    decreases |s1|
  {
    if |s1| > 0 && |profits| > 0 {
      SameSelection(s1[1..], s2[1..], profits[1..]);
    }
  }

  /** A position whose entry is not 1 contributes nothing: rewriting it to
      any other value that is not 1 leaves the result alone. */
  lemma UnselectedIgnored(solution: seq<int>, profits: seq<int>, i: int, v: int)
    requires NoneBeyond(solution, profits)
    requires 0 <= i < |solution| && solution[i] != 1 && v != 1
    ensures NoneBeyond(solution[i := v], profits)
    ensures SelectedProfit(solution[i := v], profits) == SelectedProfit(solution, profits)
  {
    SameSelection(solution, solution[i := v], profits);
  }

  /** Feasibility plays no part: a selection whose load on some constraint
      exceeds that constraint's bag limit still scores its full profit,
      which is never negative when no profit is, so no -1 or other penalty
      value comes out. The load of a selection on a constraint is its
      selected weights, summed the same way as its profits. The overweight
      premise takes no part in the proof, and that is the point: the score
      is the one `ProfitNonNegative` bounds, whatever the load. */
  lemma OverweightScoresProfit(solution: seq<int>, problem: Problem, k: int)
    requires problem.WellFormed() && NoneBeyond(solution, problem.profits)
    requires NonNegative(problem.profits)
    requires 0 <= k < |problem.constraints|
    requires SelectedProfit(solution, problem.constraints[k].weights) > problem.constraints[k].bagLimit
    ensures SelectedProfit(solution, problem.profits) >= 0
  {
    ProfitNonNegative(solution, problem.profits);
  }
}

=== FILE: knapsack.dfy ===
/** The multi-dimensional 0/1 knapsack problem as the parser hands it to the solver. */
module Knapsack {

  /** One capacity constraint: the bag limit and one weight per item. */
  datatype Constraint = Constraint(bagLimit: int, weights: seq<int>)

  /** A problem: the best known profit (informational), one profit per
      item, and the constraints. */
  datatype Problem = Problem(optimal: int, profits: seq<int>, constraints: seq<Constraint>) {

    /** Every constraint weighs every item, and nothing more. */
    ghost predicate WellFormed() {
      forall k :: 0 <= k < |constraints| ==> |constraints[k].weights| == |profits|
    }
  }
}

=== FILE: logger.dfy ===
/**
  The text logger (javascripts/logger.js).

  `log(msg, args...)` fills the `{}` placeholders of `msg` one argument
  at a time, each `line.replace("{}", arg)` rewriting the leftmost `{}`
  present at that moment, and writes the line to a text buffer, at the
  end or, when the logger is reversed, at the front.
 */
module Logger {
  import opened Results
  import Decimal

  /** The values `log` is given besides the message. An object carries
      the text `JSON.stringify` makes of it; producing that text is not
      part of this model. */
  datatype Value = Text(s: string) | Number(n: int) | Object(json: string)

  /** `handleObject`: an object becomes its JSON text; every other value
      passes through unchanged. */
  function HandleObject(v: Value): (r: Value)
    ensures !r.Object?
    ensures !v.Object? ==> r == v
    ensures v.Object? ==> r.Text? && r.s == v.json
  {
    match v
    case Object(json) => Text(json)
    case _ => v
  }

  /** The text `replace` inserts for a handled value: a string as it is, a
      number in decimal. */
  function ToText(v: Value): string {
    match v
    case Text(s) => s
    case Number(n) => Decimal.Show(n)
    case Object(json) => json
  }

  /** A `{}` starts at position `q` of `s`. */
  ghost predicate PlaceholderAt(s: string, q: int) {
    0 <= q && q + 1 < |s| && s[q] == '{' && s[q + 1] == '}'
  }

  /** `s` has no `{}` at all. */
  ghost predicate NoPlaceholder(s: string) {
    forall q :: !PlaceholderAt(s, q)
  }

  lemma PlaceholderShift(s: string)
    requires |s| > 0
    ensures forall q :: 1 <= q ==> (PlaceholderAt(s, q) <==> PlaceholderAt(s[1..], q - 1))
  {
  }

  /** Where `replace` with the string pattern `{}` matches: the leftmost
      `{}`, or nowhere. */
  function Find(line: string): (r: Option<nat>)
    ensures r.Some? ==> PlaceholderAt(line, r.value)
    ensures r.Some? ==> forall q :: 0 <= q < r.value ==> !PlaceholderAt(line, q)
    ensures r.None? <==> NoPlaceholder(line)
  {
    if |line| < 2 then None
    else if line[0] == '{' && line[1] == '}' then assert PlaceholderAt(line, 0); Some(0)
    else
      PlaceholderShift(line);
      assert !PlaceholderAt(line, 0);
      match Find(line[1..])
      case Some(p) => assert PlaceholderAt(line, p + 1); Some(p + 1)
      case None => None
  }

  /** The replacement text as `replace` builds it from the argument for a
      string pattern (section 21.1.3.14.1 of ECMA-262, 2015 edition, GetSubstitution,
      with no capture groups): `$$` is a dollar sign, `$&` the matched
      `{}`, `` $` `` the text before the match, `$'` the text after it;
      every other character stands for itself. That edition leaves `$n`
      and `$nn` to the implementation when there is no n-th capture; the
      model keeps them, like every other `$`, literal, as JavaScript
      engines do. */
  function Expand(rep: string, before: string, after: string): (r: string)
    ensures '$' !in rep ==> r == rep
    decreases |rep|
  {
    if |rep| == 0 then ""
    else if rep[0] == '$' && |rep| >= 2 && rep[1] == '$' then "$" + Expand(rep[2..], before, after)
    else if rep[0] == '$' && |rep| >= 2 && rep[1] == '&' then "{}" + Expand(rep[2..], before, after)
    else if rep[0] == '$' && |rep| >= 2 && rep[1] == '`' then before + Expand(rep[2..], before, after)
    else if rep[0] == '$' && |rep| >= 2 && rep[1] == '\'' then after + Expand(rep[2..], before, after)
    else
      assert '$' !in rep ==> '$' !in rep[1..] by {
        if '$' !in rep {
          forall i | 0 <= i < |rep[1..]| ensures rep[1..][i] != '$' {
            assert rep[1..][i] == rep[i + 1];
          }
        }
      }
      [rep[0]] + Expand(rep[1..], before, after)
  }

  /** The four `$` patterns expand as `replace` specifies, in front of
      any further replacement text. */
  lemma ExpandPatterns(tail: string, before: string, after: string)
    ensures Expand("$$" + tail, before, after) == "$" + Expand(tail, before, after)
    ensures Expand("$&" + tail, before, after) == "{}" + Expand(tail, before, after)
    ensures Expand("$`" + tail, before, after) == before + Expand(tail, before, after)
    ensures Expand("$'" + tail, before, after) == after + Expand(tail, before, after)
  {
  }

  /** A character other than `$` stands for itself, in front of the
      replacement text of the rest. With `ExpandPatterns` and
      `ExpandLoneDollar` this fixes the expansion of every argument. */
  lemma ExpandPlainStep(c: char, tail: string, before: string, after: string)
    requires c != '$'
    ensures Expand([c] + tail, before, after) == [c] + Expand(tail, before, after)
  {
    assert ([c] + tail)[1..] == tail;
  }

  /** A `$` that starts none of the four patterns, including a final `$`,
      stands for itself. */
  lemma ExpandLoneDollar(c: char, tail: string, before: string, after: string)
    requires c !in "$&`'"
    ensures Expand("$", before, after) == "$"
    ensures Expand(['$', c] + tail, before, after) == "$" + [c] + Expand(tail, before, after)
  {
    var rep := ['$', c] + tail;
    assert "$"[1..] == "";
    assert rep[1..] == [c] + tail;
    assert ([c] + tail)[1..] == tail;
  }

  /** `line.replace("{}", rep)`: a line without `{}` is unchanged; otherwise
      the leftmost `{}` is replaced, the text before and after it is kept
      whatever the argument, and an argument without `$` lands there
      literally. */
  function ReplaceFirst(line: string, rep: string): (r: string)
    ensures NoPlaceholder(line) ==> r == line
    ensures Find(line).Some? ==> var p := Find(line).value;
              |r| >= |line| - 2 && r[..p] == line[..p] && r[|r| - (|line| - p - 2)..] == line[p + 2..]
    ensures forall p :: PlaceholderAt(line, p) && (forall q :: 0 <= q < p ==> !PlaceholderAt(line, q)) && '$' !in rep ==>
              r == line[..p] + rep + line[p + 2..]
  {
    match Find(line)
    case None => line
    case Some(p) =>
      var before, after := line[..p], line[p + 2..];
      before + Expand(rep, before, after) + after
  }

  /** The `for` loop of `log`: the arguments replace placeholders one after
      the other, each scanning the line as the previous ones left it. */
  function Fill(line: string, args: seq<string>): (r: string)
    ensures NoPlaceholder(line) ==> r == line
    decreases |args|
  {
    if |args| == 0 then line else Fill(ReplaceFirst(line, args[0]), args[1..])
  }

  /** The arguments are applied strictly in order: the last one acts on the
      line all earlier ones produced. */
  lemma {:induction false} FillAppend(line: string, args: seq<string>, a: string)
    ensures Fill(line, args + [a]) == ReplaceFirst(Fill(line, args), a)
    decreases |args|
  {
    if |args| == 0 {
      assert [a][1..] == [];
    } else {
      assert (args + [a])[1..] == args[1..] + [a];
      FillAppend(ReplaceFirst(line, args[0]), args[1..], a);
    }
  }

  /** The values as `log` inserts them. */
  function Texts(args: seq<Value>): (texts: seq<string>)
    ensures |texts| == |args|
  {
    seq(|args|, k requires 0 <= k < |args| => ToText(HandleObject(args[k])))
  }

  /** The logger: the text of its target and the `reverse` flag. */
  datatype Logger = Logger(buffer: string, reverse: bool)

  /** `new Logger(target)`: the target keeps its text; not reversed. */
  function NewLogger(content: string): (r: Logger)
    ensures r.buffer == content && !r.reverse
  {
    Logger(content, false)
  }

  /** `setReverse`: only the flag changes. */
  function SetReverse(logger: Logger, flag: bool): (r: Logger)
    ensures r.reverse == flag && r.buffer == logger.buffer
  {
    logger.(reverse := flag)
  }

  /** `writeOut`: the line and a newline join the text, in front of it
      when reversed and after it otherwise; the old text stays intact. */
  function WriteOut(logger: Logger, msg: string): (r: Logger)
    ensures r.reverse == logger.reverse
    ensures |r.buffer| == |logger.buffer| + |msg| + 1
    ensures logger.reverse ==> r.buffer[..|msg|] == msg && r.buffer[|msg|] == '\n' && r.buffer[|msg| + 1..] == logger.buffer
    ensures !logger.reverse ==> r.buffer[..|logger.buffer|] == logger.buffer && r.buffer[|logger.buffer|..] == msg + "\n"
  {
    if logger.reverse then logger.(buffer := msg + "\n" + logger.buffer)
    else logger.(buffer := logger.buffer + msg + "\n")
  }

  /** `clear`: the text is emptied; the flag stays. */
  function Clear(logger: Logger): (r: Logger)
    ensures r.buffer == "" && r.reverse == logger.reverse
  {
    logger.(buffer := "")
  }

  /** `log(msg, args...)`: fill the placeholders, then write the line.
      Without arguments, or without any `{}` in it, the message is written
      unchanged. */
  function Log(logger: Logger, msg: string, args: seq<Value>): (r: Logger)
    ensures |args| == 0 ==> r == WriteOut(logger, msg)
    ensures NoPlaceholder(msg) ==> r == WriteOut(logger, msg)
    ensures r.reverse == logger.reverse
  {
    var texts := Texts(args);
    WriteOut(logger, Fill(msg, texts))
  }

  /** `log(value)` with a message that is not a string and no arguments,
      as `logProblems` logs a whole problem: the loop does nothing and
      `handleObject` turns an object message into its JSON text. */
  function LogValue(logger: Logger, msg: Value): (r: Logger)
    ensures msg.Text? ==> r == Log(logger, msg.s, [])
    ensures msg.Object? ==> r == WriteOut(logger, msg.json)
    ensures msg.Number? ==> r == WriteOut(logger, Decimal.Show(msg.n))
  {
    WriteOut(logger, ToText(HandleObject(msg)))
  }

  // ----- placeholders filled in order -----

  /** Number of `{}` in `s`. */
  function Count(s: string): nat {
    if |s| < 2 then 0
    else (if s[0] == '{' && s[1] == '}' then 1 else 0) + Count(s[1..])
  }

  lemma {:induction false} CountZero(s: string)
    ensures Count(s) == 0 <==> NoPlaceholder(s)
    decreases |s|
  {
    if |s| >= 2 {
      CountZero(s[1..]);
      PlaceholderShift(s);
      if PlaceholderAt(s, 0) {
        assert !NoPlaceholder(s);
      } else if !NoPlaceholder(s[1..]) {
        var q :| PlaceholderAt(s[1..], q);
        assert PlaceholderAt(s, q + 1);
      } else {
        assert forall q :: !PlaceholderAt(s, q);
      }
    } else {
      assert forall q :: !PlaceholderAt(s, q);
    }
  }

  /** Counting across a concatenation: a `{}` may straddle the seam. */
  lemma {:induction false} CountConcat(a: string, b: string)
    ensures Count(a + b) == Count(a) + Count(b)
                            + (if |a| > 0 && |b| > 0 && a[|a| - 1] == '{' && b[0] == '}' then 1 else 0)
    decreases |a|
  {
    if |a| == 0 {
      assert a + b == b;
    } else if |a| == 1 {
      if |b| > 0 {
        assert (a + b)[1..] == b;
      }
    } else {
      assert (a + b)[1..] == a[1..] + b;
      CountConcat(a[1..], b);
    }
  }

  /** An argument that cannot create or hold a placeholder: non-empty, no
      brace, no dollar. */
  ghost predicate Plain(arg: string) {
    |arg| > 0 && '{' !in arg && '}' !in arg && '$' !in arg
  }

  /** Text that holds no `{}` and cannot start one with what follows. */
  ghost predicate Closed(s: string) {
    Count(s) == 0 && (|s| == 0 || s[|s| - 1] != '{')
  }

  /** A message template: its pieces joined by `{}`. */
  function Join(pieces: seq<string>): string
    requires |pieces| > 0
  {
    if |pieces| == 1 then pieces[0] else pieces[0] + "{}" + Join(pieces[1..])
  }

  /** Reference result: the first `min(c, n)` placeholders of the template
      hold the arguments in order; surplus arguments are dropped and
      surplus placeholders stay. */
  function Render(pieces: seq<string>, args: seq<string>): string
    requires |pieces| > 0
  {
    if |pieces| == 1 || |args| == 0 then Join(pieces)
    else pieces[0] + args[0] + Render(pieces[1..], args[1..])
  }

  lemma CountPlain(arg: string)
    requires Plain(arg)
    ensures Closed(arg)
  {
    assert NoPlaceholder(arg) by {
      forall q ensures !PlaceholderAt(arg, q) {
        if 0 <= q < |arg| {
          assert arg[q] in arg;
        }
      }
    }
    CountZero(arg);
    assert arg[|arg| - 1] in arg;
  }

  /** Replacing the `{}` that follows text free of `{}` with a plain
      argument puts the argument in its place. */
  lemma ReplaceAfter(a: string, rest: string, arg: string)
    requires Count(a) == 0 && '$' !in arg
    ensures ReplaceFirst(a + "{}" + rest, arg) == a + arg + rest
  {
    var line := a + "{}" + rest;
    FindAfter(a, rest);
    assert line[..|a|] == a && line[|a| + 2..] == rest;
  }

  /** The search covers text inserted by earlier arguments: when the first
      argument brings a `{}` of its own, the second argument fills that one,
      inside the first, before any `{}` further on in the message. */
  lemma FillRescans(a: string, rest: string, x: string, y: string, b: string)
    requires Count(a) == 0 && Count(a + x) == 0
    requires '$' !in x && '$' !in y && '$' !in b
    ensures Fill(a + "{}" + rest, [x + "{}" + y, b]) == a + x + b + y + rest
  {
    var first := x + "{}" + y;
    DollarFree(x, y);
    FillTwo(a + "{}" + rest, first, b);
    ReplaceAfter(a, rest, first);
    Regroup(a, x, y, rest);
    ReplaceAfter(a + x, y + rest, b);
    Regroup(a + x, b, y, rest);
  }

  lemma DollarFree(x: string, y: string)
    requires '$' !in x && '$' !in y
    ensures '$' !in x + "{}" + y
  {
    var s := x + "{}" + y;
    forall i | 0 <= i < |s| ensures s[i] != '$' {
      if i < |x| {
        assert s[i] == x[i];
      } else if i >= |x| + 2 {
        assert s[i] == y[i - |x| - 2];
      }
    }
  }

  lemma FillTwo(line: string, u: string, v: string)
    ensures Fill(line, [u, v]) == ReplaceFirst(ReplaceFirst(line, u), v)
  {
    var mid := ReplaceFirst(line, u);
    FillStep(line, [u, v]);
    assert [u, v][1..] == [v];
    FillStep(mid, [v]);
    assert [v][1..] == [];
    assert Fill(ReplaceFirst(mid, v), []) == ReplaceFirst(mid, v);
  }

  lemma Regroup(a: string, x: string, y: string, rest: string)
    ensures a + (x + "{}" + y) + rest == (a + x) + "{}" + (y + rest)
    ensures (a + x) + y + (rest) == a + x + y + rest
    ensures (a + x) + y + ("" + rest) == a + x + y + rest
  {
  }

  /** Closed text, a piece free of `{}` and a plain argument make closed
      text again. */
  lemma ClosedExtend(prefix: string, piece: string, arg: string)
    requires Closed(prefix) && Count(piece) == 0 && Plain(arg)
    ensures Count(prefix + piece) == 0
    ensures Closed(prefix + piece + arg)
  {
    CountConcat(prefix, piece);
    CountPlain(arg);
    CountConcat(prefix + piece, arg);
    assert arg[0] in arg;
    assert (prefix + piece + arg)[|prefix + piece + arg| - 1] == arg[|arg| - 1];
  }

  /** A `{}` right after text free of `{}` is the leftmost one. */
  lemma FindAfter(a: string, rest: string)
    requires Count(a) == 0
    ensures Find(a + "{}" + rest) == Some(|a|)
  {
    var line := a + "{}" + rest;
    CountZero(a);
    assert PlaceholderAt(line, |a|);
    forall q | 0 <= q < |a| ensures !PlaceholderAt(line, q) {
      if q + 1 < |a| {
        assert !PlaceholderAt(a, q);
      } else {
        assert line[q + 1] == '{';
      }
    }
  }

  /** The text after the last placeholder is untouched by surplus
      arguments. */
  lemma FillTemplateLast(prefix: string, pieces: seq<string>, args: seq<string>)
    requires Closed(prefix)
    requires |pieces| == 1 && Count(pieces[0]) == 0 && |args| > 0
    ensures Fill(prefix + Join(pieces), args) == prefix + Render(pieces, args)
  {
    assert Join(pieces) == pieces[0] == Render(pieces, args);
    CountConcat(prefix, pieces[0]);
    CountZero(prefix + pieces[0]);
  }

  lemma FillStep(line: string, args: seq<string>)
    requires |args| > 0
    ensures Fill(line, args) == Fill(ReplaceFirst(line, args[0]), args[1..])
  {
  }

  lemma JoinFirst(prefix: string, pieces: seq<string>)
    requires |pieces| > 1
    ensures prefix + Join(pieces) == prefix + pieces[0] + "{}" + Join(pieces[1..])
  {
    var z := Join(pieces[1..]);
    assert Join(pieces) == pieces[0] + "{}" + z;
    assert prefix + (pieces[0] + "{}" + z) == prefix + pieces[0] + "{}" + z;
  }

  /** The first argument takes the place of the first `{}` of a template
      after closed text. */
  lemma FillFirst(prefix: string, pieces: seq<string>, args: seq<string>)
    requires Closed(prefix)
    requires |pieces| > 1 && Count(pieces[0]) == 0 && |args| > 0 && '$' !in args[0]
    ensures Fill(prefix + Join(pieces), args) == Fill(prefix + pieces[0] + args[0] + Join(pieces[1..]), args[1..])
  {
    var a, rest := prefix + pieces[0], Join(pieces[1..]);
    CountConcat(prefix, pieces[0]);
    JoinFirst(prefix, pieces);
    ReplaceAfter(a, rest, args[0]);
    FillStep(a + "{}" + rest, args);
  }

  lemma RenderFirst(prefix: string, pieces: seq<string>, args: seq<string>)
    requires |pieces| > 1 && |args| > 0
    ensures prefix + Render(pieces, args) == prefix + pieces[0] + args[0] + Render(pieces[1..], args[1..])
  {
    var z := Render(pieces[1..], args[1..]);
    assert Render(pieces, args) == pieces[0] + args[0] + z;
    assert prefix + (pieces[0] + args[0] + z) == prefix + pieces[0] + args[0] + z;
  }

  /** Filling a template after closed text: the placeholders are filled in
      order, left to right, as `Render` describes. */
  lemma {:induction false} FillTemplateAfter(prefix: string, pieces: seq<string>, args: seq<string>)
    requires Closed(prefix)
    requires |pieces| > 0 && forall k :: 0 <= k < |pieces| ==> Count(pieces[k]) == 0
    requires forall k :: 0 <= k < |args| ==> Plain(args[k])
    ensures Fill(prefix + Join(pieces), args) == prefix + Render(pieces, args)
    decreases |args|
  {
    if |args| == 0 {
      assert Render(pieces, args) == Join(pieces);
    } else if |pieces| == 1 {
      FillTemplateLast(prefix, pieces, args);
    } else {
      assert forall k :: 0 <= k < |pieces[1..]| ==> Count(pieces[1..][k]) == 0;
      assert forall k :: 0 <= k < |args[1..]| ==> Plain(args[1..][k]);
      ClosedExtend(prefix, pieces[0], args[0]);
      FillTemplateAfter(prefix + pieces[0] + args[0], pieces[1..], args[1..]);
      FillFirst(prefix, pieces, args);
      RenderFirst(prefix, pieces, args);
    }
  }

  /** `log` on a template message with plain arguments fills its
      placeholders in order. */
  lemma FillTemplate(pieces: seq<string>, args: seq<string>)
    requires |pieces| > 0 && forall k :: 0 <= k < |pieces| ==> Count(pieces[k]) == 0
    requires forall k :: 0 <= k < |args| ==> Plain(args[k])
    ensures Fill(Join(pieces), args) == Render(pieces, args)
  {
    EmptyPrefix(Join(pieces));
    EmptyPrefix(Render(pieces, args));
    FillTemplateAfter("", pieces, args);
  }

  lemma EmptyPrefix(s: string)
    ensures "" + s == s
  {
  }

  /** `log` with a template message and plain arguments writes the
      template with its placeholders filled in order. */
  lemma LogTemplate(logger: Logger, pieces: seq<string>, args: seq<Value>)
    requires |pieces| > 0 && forall k :: 0 <= k < |pieces| ==> Count(pieces[k]) == 0
    requires forall k :: 0 <= k < |args| ==> Plain(ToText(args[k]))
    ensures Log(logger, Join(pieces), args) == WriteOut(logger, Render(pieces, Texts(args)))
  {
    var texts := Texts(args);
    forall k | 0 <= k < |texts| ensures Plain(texts[k]) {
      assert texts[k] == ToText(HandleObject(args[k])) == ToText(args[k]);
    }
    FillTemplate(pieces, texts);
    assert Log(logger, Join(pieces), args) == WriteOut(logger, Fill(Join(pieces), texts));
  }

  /** A template of `c` placeholders holds exactly `c` of them. */
  lemma {:induction false} JoinCount(pieces: seq<string>)
    requires |pieces| > 0 && forall k :: 0 <= k < |pieces| ==> Count(pieces[k]) == 0
    ensures Count(Join(pieces)) == |pieces| - 1
    decreases |pieces|
  {
    if |pieces| > 1 {
      JoinCount(pieces[1..]);
      CountConcat(pieces[0], "{}");
      CountConcat(pieces[0] + "{}", Join(pieces[1..]));
    }
  }

  /** With `c` placeholders and `n` plain arguments, `c - min(c, n)`
      placeholders remain. */
  lemma {:induction false} RenderCount(pieces: seq<string>, args: seq<string>)
    requires |pieces| > 0 && forall k :: 0 <= k < |pieces| ==> Count(pieces[k]) == 0
    requires forall k :: 0 <= k < |args| ==> Plain(args[k])
    ensures Count(Render(pieces, args)) == if |args| >= |pieces| - 1 then 0 else |pieces| - 1 - |args|
    decreases |args|
  {
    if |pieces| == 1 || |args| == 0 {
      JoinCount(pieces);
    } else {
      RenderCount(pieces[1..], args[1..]);
      CountPlain(args[0]);
      CountConcat(pieces[0], args[0]);
      assert args[0][0] in args[0];
      CountConcat(pieces[0] + args[0], Render(pieces[1..], args[1..]));
      assert Render(pieces, args) == (pieces[0] + args[0]) + Render(pieces[1..], args[1..]);
    }
  }

  // ----- the buffer -----

  /** The lines `msgs`, each followed by a newline. */
  function Lines(msgs: seq<string>): string {
    if |msgs| == 0 then "" else msgs[0] + "\n" + Lines(msgs[1..])
  }

  function Reversed(msgs: seq<string>): seq<string> {
    if |msgs| == 0 then [] else Reversed(msgs[1..]) + [msgs[0]]
  }

  /** `writeOut` applied to each message in turn. */
  function WriteAll(logger: Logger, msgs: seq<string>): Logger
    decreases |msgs|
  {
    if |msgs| == 0 then logger else WriteAll(WriteOut(logger, msgs[0]), msgs[1..])
  }

  lemma {:induction false} LinesConcat(a: seq<string>, b: seq<string>)
    ensures Lines(a + b) == Lines(a) + Lines(b)
    decreases |a|
  {
    if |a| == 0 {
      assert a + b == b;
    } else {
      assert (a + b)[1..] == a[1..] + b;
      LinesConcat(a[1..], b);
    }
  }

  /** Written lines pile up after the old text in order, or, when the
      logger is reversed, before it, newest first; the flag never moves. */
  lemma {:induction false} WriteAllOrder(logger: Logger, msgs: seq<string>)
    ensures WriteAll(logger, msgs).reverse == logger.reverse
    ensures !logger.reverse ==> WriteAll(logger, msgs).buffer == logger.buffer + Lines(msgs)
    ensures logger.reverse ==> WriteAll(logger, msgs).buffer == Lines(Reversed(msgs)) + logger.buffer
    decreases |msgs|
  {
    if |msgs| > 0 {
      var next := WriteOut(logger, msgs[0]);
      WriteAllOrder(next, msgs[1..]);
      assert WriteAll(logger, msgs) == WriteAll(next, msgs[1..]);
      if logger.reverse {
        assert next.buffer == msgs[0] + "\n" + logger.buffer;
        LinesConcat(Reversed(msgs[1..]), [msgs[0]]);
        assert Lines([msgs[0]]) == msgs[0] + "\n";
      } else {
        assert next.buffer == logger.buffer + msgs[0] + "\n";
        assert Lines(msgs) == msgs[0] + "\n" + Lines(msgs[1..]);
      }
    }
  }

  /** After `clear`, a written line is the whole text in either mode. */
  lemma ClearThenWrite(logger: Logger, msg: string)
    ensures WriteOut(Clear(logger), msg).buffer == msg + "\n"
    ensures WriteOut(Clear(logger), msg).reverse == logger.reverse
  {
  }

  /** `setReverse(true)` sends the following lines to the front of the
      text, `setReverse(false)` to its end; the text itself is kept. */
  lemma SetReverseThenWrite(logger: Logger, flag: bool, msg: string)
    ensures SetReverse(logger, flag).buffer == logger.buffer
    ensures flag ==> WriteOut(SetReverse(logger, flag), msg).buffer == msg + "\n" + logger.buffer
    ensures !flag ==> WriteOut(SetReverse(logger, flag), msg).buffer == logger.buffer + msg + "\n"
  {
  }
}

=== FILE: orformat.dfy ===
/**
  Writing problems back out in the OR-Library layout the parser reads:
  the problem count, then per problem `N M optimal`, the N profits, the M
  weight rows and the M bag limits. This is the inverse the parser's
  round-trip lemmas are proved against.
 */
module ORFormat {
  import opened Results
  import opened Knapsack
  import opened ORParser
  import Text
  import Decimal

  /** The tokens of one problem block. */
  function EncodeProblem(problem: Problem): seq<int> {
    var raw := FromProblem(problem);
    [|problem.profits|, |problem.constraints|, problem.optimal] + raw.profits + Text.Concat(raw.weights) + raw.bagLimits
  }

  /** The blocks of several problems, one after the other. */
  function EncodeAll(problems: seq<Problem>): seq<int> {
    if |problems| == 0 then [] else EncodeProblem(problems[0]) + EncodeAll(problems[1..])
  }

  /** A whole problem file as integers: the count, then the blocks. */
  function Encode(problems: seq<Problem>): seq<int> {
    [|problems|] + EncodeAll(problems)
  }

  /** Every problem of the list is well-formed. */
  ghost predicate AllWellFormed(problems: seq<Problem>) {
    forall p :: 0 <= p < |problems| ==> problems[p].WellFormed()
  }

  /** Rows of one width are determined by their concatenation. */
  lemma {:induction false} ConcatInjective(a: seq<seq<int>>, b: seq<seq<int>>, n: int)
    requires |a| == |b|
    requires forall q :: 0 <= q < |a| ==> |a[q]| == n
    requires forall q :: 0 <= q < |b| ==> |b[q]| == n
    requires Text.Concat(a) == Text.Concat(b)
    ensures a == b
    decreases |a|
  {
    if |a| > 0 {
      assert a[0] == Text.Concat(a)[..n] == Text.Concat(b)[..n] == b[0];
      assert Text.Concat(a)[n..] == Text.Concat(a[1..]);
      assert Text.Concat(b)[n..] == Text.Concat(b[1..]);
      ConcatInjective(a[1..], b[1..], n);
      assert a == [a[0]] + a[1..];
      assert b == [b[0]] + b[1..];
    }
  }

  /** Where each part of an encoded block lands in the token stream. */
  lemma EncodedLayout(tokens: seq<int>, pre: seq<int>, problem: Problem, post: seq<int>)
    requires problem.WellFormed()
    requires tokens == pre + EncodeProblem(problem) + post
    ensures var i, n, m := |pre|, |problem.profits|, |problem.constraints|;
            && |EncodeProblem(problem)| == 3 + n + n * m + m
            && i + 3 + n + n * m + m <= |tokens|
            && tokens[i] == n && tokens[i + 1] == m && tokens[i + 2] == problem.optimal
            && tokens[i + 3 .. i + 3 + n] == FromProblem(problem).profits
            && tokens[i + 3 + n .. i + 3 + n + n * m] == Text.Concat(FromProblem(problem).weights)
            && tokens[i + 3 + n + n * m .. i + 3 + n + n * m + m] == FromProblem(problem).bagLimits
  {
    var raw := FromProblem(problem);
    var i, n, m := |pre|, |problem.profits|, |problem.constraints|;
    ConcatLength(raw.weights, n);
    assert |Text.Concat(raw.weights)| == n * m;
    var head: seq<int> := [n, m, problem.optimal];
    var e := EncodeProblem(problem);
    assert e == head + raw.profits + Text.Concat(raw.weights) + raw.bagLimits;
    assert tokens[i .. i + |e|] == e;
    assert e[3 .. 3 + n] == raw.profits;
    assert e[3 + n .. 3 + n + n * m] == Text.Concat(raw.weights);
    assert e[3 + n + n * m ..] == raw.bagLimits;
  }

  /** A block is determined by the tokens at its header. */
  lemma BlockAtUnique(tokens: seq<int>, i: int, a: RawProblem, b: RawProblem)
    requires IsBlockAt(tokens, i, a) && IsBlockAt(tokens, i, b)
    ensures a == b
  {
    var n, m := tokens[i], tokens[i + 1];
    assert a.profits == b.profits;
    assert a.bagLimits == b.bagLimits;
    assert |a.weights| == Max0(m) == |b.weights|;
    assert forall k :: 0 <= k < |a.weights| ==> |a.weights[k]| == Max0(n) == |b.weights[k]|;
    if n > 0 && m > 0 {
      ConcatInjective(a.weights, b.weights, n);
    } else {
      forall k | 0 <= k < |a.weights| ensures a.weights[k] == b.weights[k] {
        assert |a.weights[k]| == 0 == |b.weights[k]|;
      }
    }
  }

  /** A block whose parts lie, slice by slice, where the block layout puts
      them is the block at that cursor. */
  lemma BlockFromSlices(tokens: seq<int>, i: int, raw: RawProblem, n: nat, m: nat)
    requires 0 <= i && i + 3 + n + n * m + m <= |tokens|
    requires tokens[i] == n && tokens[i + 1] == m && tokens[i + 2] == raw.optimal
    requires |raw.weights| == m && forall k :: 0 <= k < m ==> |raw.weights[k]| == n
    requires tokens[i + 3 .. i + 3 + n] == raw.profits
    requires tokens[i + 3 + n .. i + 3 + n + n * m] == Text.Concat(raw.weights)
    requires tokens[i + 3 + n + n * m .. i + 3 + n + n * m + m] == raw.bagLimits
    ensures BlockReadable(tokens, i)
    ensures IsBlockAt(tokens, i, raw)
  {
    assert 0 <= n * m;
    var b, c := i + 3 + n, i + 3 + n + n * m;
    assert |raw.profits| == Max0(n) && |raw.bagLimits| == Max0(m) && |raw.weights| == Max0(m);
    forall k | 0 <= k < n ensures raw.profits[k] == tokens[i + 3 + k] {
      assert tokens[i + 3 .. b][k] == tokens[i + 3 + k];
    }
    forall k | 0 <= k < m ensures raw.bagLimits[k] == tokens[c + k] {
      assert tokens[c .. c + m][k] == tokens[c + k];
    }
    assert BlockReadable(tokens, i);
  }

  /** An encoded block sits at the cursor where its encoding starts. */
  lemma EncodedBlockAt(tokens: seq<int>, pre: seq<int>, problem: Problem, post: seq<int>)
    requires problem.WellFormed()
    requires tokens == pre + EncodeProblem(problem) + post
    ensures BlockReadable(tokens, |pre|)
    ensures IsBlockAt(tokens, |pre|, FromProblem(problem))
    ensures BlockSize(tokens, |pre|) == |EncodeProblem(problem)|
  {
    EncodedLayout(tokens, pre, problem, post);
    BlockFromSlices(tokens, |pre|, FromProblem(problem), |problem.profits|, |problem.constraints|);
  }

  /** Reading an encoded block gives the problem's rows and bag limits back
      and leaves the cursor right after the block. */
  lemma ReadBlockEncoded(tokens: seq<int>, pre: seq<int>, problem: Problem, post: seq<int>)
    requires problem.WellFormed()
    requires tokens == pre + EncodeProblem(problem) + post
    ensures ReadBlock(tokens, |pre|) == Ok((FromProblem(problem), |pre + EncodeProblem(problem)|))
  {
    EncodedBlockAt(tokens, pre, problem, post);
    var r := ReadBlock(tokens, |pre|);
    BlockAtUnique(tokens, |pre|, r.value.0, FromProblem(problem));
  }

  /** The problems seen as the parser's blocks. */
  function Raws(problems: seq<Problem>): seq<RawProblem> {
    seq(|problems|, p requires 0 <= p < |problems| => FromProblem(problems[p]))
  }

  /** Reading the blocks of an encoded problem list gives every block back. */
  lemma {:induction false} ReadBlocksEncoded(tokens: seq<int>, pre: seq<int>, problems: seq<Problem>, post: seq<int>)
    requires AllWellFormed(problems)
    requires tokens == pre + EncodeAll(problems) + post
    ensures ReadBlocks(tokens, |pre|, |problems|) == Ok(Raws(problems))
    decreases |problems|
  {
    if |problems| > 0 {
      var e, rest := EncodeProblem(problems[0]), problems[1..];
      EncodeAllCons(pre, problems, post);
      assert problems[0].WellFormed();
      ReadBlockEncoded(tokens, pre, problems[0], EncodeAll(rest) + post);
      assert AllWellFormed(rest);
      ReadBlocksEncoded(tokens, pre + e, rest, post);
      ReadBlocksCons(tokens, |pre|, |problems|, FromProblem(problems[0]), |pre + e|, |rest|, Raws(rest));
      RawsCons(problems);
    } else {
      assert Raws(problems) == [];
    }
  }

  /** An encoded list split after its first problem. */
  lemma EncodeAllCons(pre: seq<int>, problems: seq<Problem>, post: seq<int>)
    requires |problems| > 0
    ensures var e, tail := EncodeProblem(problems[0]), EncodeAll(problems[1..]);
            && pre + EncodeAll(problems) + post == pre + e + (tail + post)
            && pre + EncodeAll(problems) + post == (pre + e) + tail + post
  {
    var e, tail := EncodeProblem(problems[0]), EncodeAll(problems[1..]);
    assert EncodeAll(problems) == e + tail;
    Regroup(pre, e, tail, post);
  }

  lemma Regroup(a: seq<int>, b: seq<int>, c: seq<int>, d: seq<int>)
    ensures a + (b + c) + d == a + b + (c + d) == (a + b) + c + d
  {
  }

  lemma RawsCons(problems: seq<Problem>)
    requires |problems| > 0
    ensures Raws(problems) == [FromProblem(problems[0])] + Raws(problems[1..])
  {
  }

  lemma ReadBlocksCons(tokens: seq<int>, i: int, count: nat, raw: RawProblem, next: int, n: nat, rest: seq<RawProblem>)
    requires count == n + 1
    requires ReadBlock(tokens, i) == Ok((raw, next))
    requires ReadBlocks(tokens, next, n) == Ok(rest)
    ensures ReadBlocks(tokens, i, count) == Ok([raw] + rest)
  {
  }

  /** Parsing the tokens of a problem list gives the list back, whatever
      tokens follow it. */
  lemma ParseTokensEncode(problems: seq<Problem>, extra: seq<int>)
    requires AllWellFormed(problems)
    ensures ParseTokens(Encode(problems) + extra) == Ok(problems)
  {
    var tokens := Encode(problems) + extra;
    assert tokens == [|problems|] + EncodeAll(problems) + extra;
    ReadBlocksEncoded(tokens, [|problems|], problems, extra);
    var raws := Raws(problems);
    forall p | 0 <= p < |problems|
      ensures raws[p].Shaped() && ToProblem(raws[p]) == problems[p]
    {
      ReorderInverse(problems[p]);
    }
    assert Reorder(raws) == problems;
  }

  /** Every number of the file written in decimal. */
  function Words(values: seq<int>): (words: seq<string>)
    ensures |words| == |values|
  {
    seq(|values|, k requires 0 <= k < |values| => Decimal.Show(values[k]))
  }

  /** No whitespace before the first number, one space between numbers,
      a newline at the end. */
  function Gaps(count: nat): seq<string> {
    seq(count + 1, k => if k == 0 then "" else if k == count then "\n" else " ")
  }

  /** A problem file holding `problems`. */
  function Format(problems: seq<Problem>): string {
    var words := Words(Encode(problems));
    Text.Spread(words, Gaps(|words|))
  }

  lemma {:induction false} ToIntsWords(values: seq<int>)
    ensures ToInts(Words(values)) == Ok(values)
  {
    var words := Words(values);
    var r := ToInts(words);
    if r.Err? {
      assert false;
    }
    forall k | 0 <= k < |values| ensures r.value[k] == values[k] {
      assert Decimal.ParseInt(Decimal.Show(values[k])) == Some(values[k]);
    }
    assert r.value == values;
  }

  /** Parsing a formatted problem list stores and returns exactly that list. */
  lemma ParseFormat(parser: Parser, problems: seq<Problem>)
    requires AllWellFormed(problems)
    ensures Parse(parser, Format(problems)) == (Parser(problems), Problems(problems))
  {
    var values := Encode(problems);
    var words := Words(values);
    forall k | 0 <= k < |words| ensures Text.IsToken(words[k]) {
      Decimal.ShowIsToken(values[k]);
    }
    Text.TokenizeSpread(words, Gaps(|words|));
    ToIntsWords(values);
    assert values == Encode(problems) + [];
    ParseTokensEncode(problems, []);
    Text.SpreadNonEmpty(words, Gaps(|words|));
  }

  /** A problem file is read back exactly whatever whitespace lays out its
      numbers, as long as neighbouring numbers are separated. */
  lemma ParseAnyLayout(parser: Parser, problems: seq<Problem>, gaps: seq<string>)
    requires AllWellFormed(problems)
    requires |gaps| == |Encode(problems)| + 1 && Text.Separating(gaps)
    ensures Parse(parser, Text.Spread(Words(Encode(problems)), gaps)) == (Parser(problems), Problems(problems))
  {
    var values := Encode(problems);
    var words := Words(values);
    assert values == [|problems|] + EncodeAll(problems);
    forall k | 0 <= k < |words| ensures Text.IsToken(words[k]) {
      Decimal.ShowIsToken(values[k]);
    }
    GapsSeparating(|words|);
    ParseIgnoresLayout(parser, words, gaps, Gaps(|words|));
    ParseFormat(parser, problems);
    assert Format(problems) == Text.Spread(words, Gaps(|words|));
  }

  lemma GapsSeparating(count: nat)
    ensures Text.Separating(Gaps(count))
  {
    var gaps := Gaps(count);
    forall k | 0 <= k < |gaps| ensures Text.IsBlank(gaps[k]) {
      assert Text.IsSpace(' ') && Text.IsSpace('\n');
    }
  }
}

=== FILE: orparser.dfy ===
/**
  The OR-Library problem-file parser (javascripts/orparser.js).

  A file is a stream of whitespace-separated integers: the number of
  problems, then per problem a header `N M optimal`, N profits, M rows of
  N weights, and M bag limits. The parser walks a cursor through the
  tokens one block at a time, then regroups each block's weight rows and
  bag limits into constraints.
 */
module ORParser {
  import opened Results
  import opened Knapsack
  import Text
  import Decimal

  /** Why parsing stopped. `NoTokens` is the whitespace-only input, on
      which `parse` fails because the match result is null;
      `NotAnInteger` and `MissingToken` stand for the places where it
      would read `NaN` instead of a number. */
  datatype ParseError =
    | NoTokens
    | NotAnInteger(position: nat)
    | MissingToken(index: int)

  /** One problem block as it is read, before weight rows and bag limits
      are regrouped into constraints. */
  datatype RawProblem = RawProblem(optimal: int, profits: seq<int>, weights: seq<seq<int>>, bagLimits: seq<int>) {

    /** One bag limit per weight row, one weight per profit in every row. */
    ghost predicate Shaped() {
      && |bagLimits| == |weights|
      && forall k :: 0 <= k < |weights| ==> |weights[k]| == |profits|
    }
  }

  /** How many times `for (k = 0; k < x; k++)` runs. */
  function Max0(x: int): nat {
    if x > 0 then x else 0
  }

  /** An error that names a token index the input does not have. */
  ghost predicate Missing(tokens: seq<int>, e: ParseError) {
    e.MissingToken? && !(0 <= e.index < |tokens|)
  }

  /** The first index out of range when reading upwards from `from`. */
  function FirstMissing(tokens: seq<int>, from: int): int {
    if 0 <= from < |tokens| then |tokens| else from
  }

  /** `getToken`: the token at index `i`, which must exist. */
  function Token(tokens: seq<int>, i: int): (r: Result<int, ParseError>)
    ensures r.Ok? <==> 0 <= i < |tokens|
    ensures r.Ok? ==> r.value == tokens[i]
    ensures r.Err? ==> Missing(tokens, r.error) && r.error.index == i
  {
    if 0 <= i < |tokens| then Ok(tokens[i]) else Err(MissingToken(i))
  }

  /** The loop `for (k = 0; k < count; k++) push(getToken(tokens, from + k))`. */
  function ReadRange(tokens: seq<int>, from: int, count: int): (r: Result<seq<int>, ParseError>)
    ensures r.Ok? <==> count <= 0 || (0 <= from && from + count <= |tokens|)
    ensures r.Ok? ==> |r.value| == Max0(count)
    ensures r.Ok? ==> forall k :: 0 <= k < |r.value| ==> r.value[k] == tokens[from + k]
    ensures r.Err? ==> r.error == MissingToken(FirstMissing(tokens, from))
    decreases Max0(count)
  {
    if count <= 0 then Ok([])
    else
      var first :- Token(tokens, from);
      var rest :- ReadRange(tokens, from + 1, count - 1);
      Ok([first] + rest)
  }

  lemma ProductStep(n: int, m: int)
    ensures n * (m - 1) + n == n * m
  {
  }

  /** The nested weight loops: `m` rows of `n` tokens each, read one after
      the other from `start`. */
  function ReadRows(tokens: seq<int>, start: int, n: int, m: int): (r: Result<seq<seq<int>>, ParseError>)
    ensures r.Ok? <==> m <= 0 || n <= 0 || (0 <= start && start + n * m <= |tokens|)
    ensures r.Ok? ==> |r.value| == Max0(m)
    ensures r.Ok? ==> forall k :: 0 <= k < |r.value| ==> |r.value[k]| == Max0(n)
    ensures r.Ok? && n > 0 && m > 0 ==> Text.Concat(r.value) == tokens[start .. start + n * m]
    ensures r.Err? ==> r.error == MissingToken(FirstMissing(tokens, start))
    decreases Max0(m)
  {
    if m <= 0 then Ok([])
    else
      var row :- ReadRange(tokens, start, n);
      var rest :- ReadRows(tokens, start + n, n, m - 1);
      ProductStep(n, m);
      var rows := [row] + rest;
      assert rows[1..] == rest;
      assert n > 0 ==> row == tokens[start .. start + n];
      Ok(rows)
  }

  /** In rows of equal width `n`, entry `j` of row `k` sits at `k * n + j`
      of their concatenation. */
  lemma {:induction false} ConcatIndex(rows: seq<seq<int>>, n: int, k: int, j: int)
    requires forall q :: 0 <= q < |rows| ==> |rows[q]| == n
    requires 0 <= k < |rows| && 0 <= j < n
    ensures 0 <= k * n + j < |Text.Concat(rows)| && Text.Concat(rows)[k * n + j] == rows[k][j]
    decreases k
  {
    ConcatLength(rows, n);
    if k > 0 {
      ConcatIndex(rows[1..], n, k - 1, j);
      ProductStep(n, k);
      assert k * n + j == n + ((k - 1) * n + j);
    }
  }

  lemma {:induction false} ConcatLength(rows: seq<seq<int>>, n: int)
    requires forall q :: 0 <= q < |rows| ==> |rows[q]| == n
    ensures |Text.Concat(rows)| == |rows| * n
  {
    if |rows| > 0 {
      ConcatLength(rows[1..], n);
      ProductStep(n, |rows|);
    }
  }

  /** Tokens taken by the block whose header is at `i`: the header, N
      profits, N*M weights and M bag limits. */
  function BlockSize(tokens: seq<int>, i: int): int {
    if 0 <= i && i + 1 < |tokens| then
      var n, m := tokens[i], tokens[i + 1];
      3 + n + n * m + m
    else 0
  }

  /** Every token the block at `i` reads exists. */
  ghost predicate BlockReadable(tokens: seq<int>, i: int) {
    && 0 <= i && i + 3 <= |tokens|
    && var n, m := tokens[i], tokens[i + 1];
    && (n <= 0 || i + 3 + n <= |tokens|)
    && (n <= 0 || m <= 0 || i + 3 + n + n * m <= |tokens|)
    && (m <= 0 || (0 <= i + 3 + n + n * m && i + 3 + n + n * m + m <= |tokens|))
  }

  /** `raw` is the block whose header is at `i`, token by token. */
  ghost predicate IsBlockAt(tokens: seq<int>, i: int, raw: RawProblem) {
    && 0 <= i && i + 3 <= |tokens|
    && var n, m := tokens[i], tokens[i + 1];
    && raw.optimal == tokens[i + 2]
    && |raw.profits| == Max0(n)
    && (forall k :: 0 <= k < |raw.profits| ==>
          0 <= i + 3 + k < |tokens| && raw.profits[k] == tokens[i + 3 + k])
    && |raw.weights| == Max0(m)
    && (forall k :: 0 <= k < |raw.weights| ==> |raw.weights[k]| == Max0(n))
    && (n > 0 && m > 0 ==>
          && 0 <= i + 3 + n <= i + 3 + n + n * m <= |tokens|
          && Text.Concat(raw.weights) == tokens[i + 3 + n .. i + 3 + n + n * m])
    && |raw.bagLimits| == Max0(m)
    && (forall k :: 0 <= k < |raw.bagLimits| ==>
          0 <= i + 3 + n + n * m + k < |tokens| && raw.bagLimits[k] == tokens[i + 3 + n + n * m + k])
  }

  /** Weight `j` of row `k` of the block at `i` is the token at
      `i + 3 + N + k * N + j`. */
  lemma BlockWeightAt(tokens: seq<int>, i: int, raw: RawProblem, k: int, j: int)
    requires IsBlockAt(tokens, i, raw)
    requires 0 <= k < |raw.weights| && 0 <= j < |raw.weights[k]|
    ensures 0 <= i + 3 + tokens[i] + k * tokens[i] + j < |tokens|
    ensures raw.weights[k][j] == tokens[i + 3 + tokens[i] + k * tokens[i] + j]
  {
    var n, m := tokens[i], tokens[i + 1];
    assert |raw.weights| == Max0(m) && |raw.weights[k]| == Max0(n);
    assert n > 0 && m > 0;
    ConcatIndex(raw.weights, n, k, j);
    ConcatLength(raw.weights, n);
    assert |raw.weights| * n == n * m;
    var flat := tokens[i + 3 + n .. i + 3 + n + n * m];
    assert raw.weights[k][j] == flat[k * n + j];
  }

  /** One iteration of the `while (p < numberOfProblems)` loop: read the
      block whose header is at cursor `i` and return the advanced cursor. */
  function ReadBlock(tokens: seq<int>, i: int): (r: Result<(RawProblem, int), ParseError>)
    ensures r.Ok? <==> BlockReadable(tokens, i)
    ensures r.Ok? ==> IsBlockAt(tokens, i, r.value.0) && r.value.0.Shaped()
    ensures r.Ok? ==> r.value.1 == i + BlockSize(tokens, i)
    ensures r.Err? ==> Missing(tokens, r.error)
  {
    var n :- Token(tokens, i);
    var m :- Token(tokens, i + 1);
    var optimal :- Token(tokens, i + 2);
    var profits :- ReadRange(tokens, i + 3, n);
    var weights :- ReadRows(tokens, i + 3 + n, n, m);
    var bagLimits :- ReadRange(tokens, i + 3 + n + n * m, m);
    Ok((RawProblem(optimal, profits, weights, bagLimits), i + 3 + n + n * m + m))
  }

  /** `count` consecutive blocks, the first with its header at `i`. */
  function ReadBlocks(tokens: seq<int>, i: int, count: nat): (r: Result<seq<RawProblem>, ParseError>)
    ensures r.Ok? ==> |r.value| == count
    ensures r.Ok? ==> forall p :: 0 <= p < |r.value| ==> r.value[p].Shaped()
    ensures r.Err? ==> Missing(tokens, r.error)
    decreases count
  {
    if count == 0 then Ok([])
    else
      var block :- ReadBlock(tokens, i);
      var rest :- ReadBlocks(tokens, block.1, count - 1);
      Ok([block.0] + rest)
  }

  /** Where the header of block `p` sits when block 0 starts at `i`. */
  ghost function Start(tokens: seq<int>, i: int, p: nat): int
    decreases p
  {
    if p == 0 then i else Start(tokens, i + BlockSize(tokens, i), p - 1)
  }

  /** Block `p + 1` starts exactly where block `p`'s bag limits end. */
  lemma {:induction false} StartStep(tokens: seq<int>, i: int, p: nat)
    ensures Start(tokens, i, p + 1) == Start(tokens, i, p) + BlockSize(tokens, Start(tokens, i, p))
    decreases p
  {
    if p > 0 {
      StartStep(tokens, i + BlockSize(tokens, i), p - 1);
    }
  }

  /** The `count` blocks from `i` on are readable, each at the cursor its
      predecessor leaves. */
  ghost predicate AllReadable(tokens: seq<int>, i: int, count: nat)
    decreases count
  {
    count == 0 || (BlockReadable(tokens, i) && AllReadable(tokens, i + BlockSize(tokens, i), count - 1))
  }

  lemma {:induction false} ReadBlocksReadable(tokens: seq<int>, i: int, count: nat)
    ensures ReadBlocks(tokens, i, count).Ok? <==> AllReadable(tokens, i, count)
    decreases count
  {
    if count > 0 {
      var next := i + BlockSize(tokens, i);
      ReadBlocksStep(tokens, i, count);
      ReadBlocksReadable(tokens, next, count - 1);
      assert AllReadable(tokens, i, count) <==> BlockReadable(tokens, i) && AllReadable(tokens, next, count - 1);
    }
  }

  /** Reading `count > 0` blocks succeeds exactly when the first block can
      be read and so can the rest, from the cursor it leaves. */
  lemma ReadBlocksStep(tokens: seq<int>, i: int, count: nat)
    requires count > 0
    ensures ReadBlocks(tokens, i, count).Ok? <==>
              BlockReadable(tokens, i) && ReadBlocks(tokens, i + BlockSize(tokens, i), count - 1).Ok?
  {
    var head := ReadBlock(tokens, i);
    if head.Ok? {
      assert head.value.1 == i + BlockSize(tokens, i);
    }
  }

  lemma {:induction false} AllReadableStarts(tokens: seq<int>, i: int, count: nat)
    ensures AllReadable(tokens, i, count) <==>
              forall p :: 0 <= p < count ==> BlockReadable(tokens, Start(tokens, i, p))
    decreases count
  {
    if count > 0 {
      var next := i + BlockSize(tokens, i);
      AllReadableStarts(tokens, next, count - 1);
      assert Start(tokens, i, 0) == i;
      if AllReadable(tokens, i, count) {
        forall p | 0 < p < count
          ensures BlockReadable(tokens, Start(tokens, i, p))
        {
          assert AllReadable(tokens, next, count - 1);
          assert BlockReadable(tokens, Start(tokens, next, p - 1));
          assert Start(tokens, i, p) == Start(tokens, next, p - 1);
        }
      } else if BlockReadable(tokens, i) {
        assert !AllReadable(tokens, next, count - 1);
        var q :| 0 <= q < count - 1 && !BlockReadable(tokens, Start(tokens, next, q));
        assert Start(tokens, i, q + 1) == Start(tokens, next, q);
        assert !BlockReadable(tokens, Start(tokens, i, q + 1));
      } else {
        assert !AllReadable(tokens, i, count);
        assert !BlockReadable(tokens, Start(tokens, i, 0));
        assert !(forall p :: 0 <= p < count ==> BlockReadable(tokens, Start(tokens, i, p)));
      }
    }
  }

  /** Reading `count` blocks succeeds exactly when every block is readable
      at its start. */
  lemma ReadBlocksOk(tokens: seq<int>, i: int, count: nat)
    ensures ReadBlocks(tokens, i, count).Ok? <==>
              forall p :: 0 <= p < count ==> BlockReadable(tokens, Start(tokens, i, p))
  {
    ReadBlocksReadable(tokens, i, count);
    AllReadableStarts(tokens, i, count);
  }

  /** When reading `count` blocks succeeds, block `p` is the one whose
      header is at `Start(tokens, i, p)`. */
  lemma {:induction false} ReadBlocksAt(tokens: seq<int>, i: int, count: nat)
    requires ReadBlocks(tokens, i, count).Ok?
    ensures forall p :: 0 <= p < count ==>
              IsBlockAt(tokens, Start(tokens, i, p), ReadBlocks(tokens, i, count).value[p])
    decreases count
  {
    if count > 0 {
      var next := i + BlockSize(tokens, i);
      var ps := ReadBlocks(tokens, i, count).value;
      var rest := ReadBlocks(tokens, next, count - 1).value;
      ReadBlocksAt(tokens, next, count - 1);
      assert ps[1..] == rest;
      forall p | 0 <= p < count
        ensures IsBlockAt(tokens, Start(tokens, i, p), ps[p])
      {
        if p > 0 {
          assert Start(tokens, i, p) == Start(tokens, next, p - 1);
          assert ps[p] == rest[p - 1];
        }
      }
    }
  }

  /** `reorderProblemsDataStructure` for one block: weight row `k` and bag
      limit `k` become constraint `k`. */
  function ToProblem(raw: RawProblem): (problem: Problem)
    requires raw.Shaped()
    ensures problem.optimal == raw.optimal && problem.profits == raw.profits
    ensures |problem.constraints| == |raw.weights|
    ensures forall k :: 0 <= k < |raw.weights| ==>
              problem.constraints[k].weights == raw.weights[k] && problem.constraints[k].bagLimit == raw.bagLimits[k]
  {
    Problem(raw.optimal, raw.profits,
            seq(|raw.weights|, k requires 0 <= k < |raw.weights| => Constraint(raw.bagLimits[k], raw.weights[k])))
  }

  /** The inverse regrouping: constraints back into weight rows and bag limits. */
  function FromProblem(problem: Problem): RawProblem {
    RawProblem(problem.optimal, problem.profits,
               seq(|problem.constraints|, k requires 0 <= k < |problem.constraints| => problem.constraints[k].weights),
               seq(|problem.constraints|, k requires 0 <= k < |problem.constraints| => problem.constraints[k].bagLimit))
  }

  /** Regrouping loses nothing: undoing it gives the block back, and the
      problem it builds has one constraint per weight row, each as wide as
      the profit list. */
  lemma ReorderRoundTrip(raw: RawProblem)
    requires raw.Shaped()
    ensures FromProblem(ToProblem(raw)) == raw
    ensures ToProblem(raw).WellFormed()
    ensures |ToProblem(raw).constraints| == |raw.weights|
  {
  }

  /** Regrouping a well-formed problem's own rows gives the problem back. */
  lemma ReorderInverse(problem: Problem)
    requires problem.WellFormed()
    ensures FromProblem(problem).Shaped()
    ensures ToProblem(FromProblem(problem)) == problem
  {
  }

  /** `reorderProblemsDataStructure`: every block regrouped, in order. */
  function Reorder(raws: seq<RawProblem>): (problems: seq<Problem>)
    requires forall p :: 0 <= p < |raws| ==> raws[p].Shaped()
    ensures |problems| == |raws|
    ensures forall p :: 0 <= p < |raws| ==>
              && problems[p].optimal == raws[p].optimal
              && problems[p].profits == raws[p].profits
              && problems[p].WellFormed()
              && FromProblem(problems[p]) == raws[p]
  {
    var problems := seq(|raws|, p requires 0 <= p < |raws| => ToProblem(raws[p]));
    ReorderAll(raws, problems);
    problems
  }

  lemma ReorderAll(raws: seq<RawProblem>, problems: seq<Problem>)
    requires forall p :: 0 <= p < |raws| ==> raws[p].Shaped()
    requires |problems| == |raws|
    requires forall p :: 0 <= p < |raws| ==> problems[p] == ToProblem(raws[p])
    ensures forall p :: 0 <= p < |raws| ==> problems[p].WellFormed() && FromProblem(problems[p]) == raws[p]
  {
    forall p | 0 <= p < |raws|
      ensures problems[p].WellFormed() && FromProblem(problems[p]) == raws[p]
    {
      ReorderRoundTrip(raws[p]);
    }
  }

  /** `parseTokens`: the problem count is the first token, and the first
      block's header follows it. */
  function ParseTokens(tokens: seq<int>): (r: Result<seq<Problem>, ParseError>)
    ensures r.Ok? ==> |tokens| > 0 && |r.value| == Max0(tokens[0])
    ensures r.Ok? ==> forall p :: 0 <= p < |r.value| ==> r.value[p].WellFormed()
    ensures r.Err? ==> (r.error == NoTokens <==> |tokens| == 0)
    ensures r.Err? && |tokens| > 0 ==> Missing(tokens, r.error)
  {
    if |tokens| == 0 then Err(NoTokens)
    else
      var raws :- ReadBlocks(tokens, 1, Max0(tokens[0]));
      Ok(Reorder(raws))
  }

  /** What parsing yields, block by block: it succeeds exactly when every
      block's tokens exist, and problem `p`, seen as rows and bag limits,
      is the block whose header is at `Start(tokens, 1, p)`. */
  lemma ParseTokensBlocks(tokens: seq<int>)
    requires |tokens| > 0
    ensures ParseTokens(tokens).Ok? <==>
              forall p :: 0 <= p < Max0(tokens[0]) ==> BlockReadable(tokens, Start(tokens, 1, p))
    ensures ParseTokens(tokens).Ok? ==>
              forall p :: 0 <= p < |ParseTokens(tokens).value| ==>
                IsBlockAt(tokens, Start(tokens, 1, p), FromProblem(ParseTokens(tokens).value[p]))
  {
    ReadBlocksOk(tokens, 1, Max0(tokens[0]));
    if ParseTokens(tokens).Ok? {
      ReadBlocksAt(tokens, 1, Max0(tokens[0]));
    }
  }

  /** The tokens read as integers; the error names the first token that is not one. */
  function ToInts(words: seq<string>): (r: Result<seq<int>, ParseError>)
    ensures r.Ok? ==> |r.value| == |words|
    ensures r.Ok? ==> forall k :: 0 <= k < |words| ==> Decimal.ParseInt(words[k]) == Some(r.value[k])
    ensures r.Err? ==> r.error.NotAnInteger? && r.error.position < |words|
    ensures r.Err? ==> Decimal.ParseInt(words[r.error.position]).None?
    ensures r.Err? ==> forall k :: 0 <= k < r.error.position ==> Decimal.ParseInt(words[k]).Some?
  {
    if |words| == 0 then Ok([])
    else
      var front := words[..|words| - 1];
      var values :- ToInts(front);
      match Decimal.ParseInt(words[|words| - 1])
      case Some(v) => Ok(values + [v])
      case None => Err(NotAnInteger(|words| - 1))
  }

  /** The parser object: the problems of the last successful parse. */
  datatype Parser = Parser(problems: seq<Problem>)

  /** What `parse` hands back to its caller. */
  datatype Returned =
    | Nothing                      // `return;` on empty input
    | Problems(list: seq<Problem>) // `return this.problems;`
    | Thrown(error: ParseError)    // parsing stopped; see `ParseError`

  /** `parse` on a non-empty input, without the parser state: match the
      tokens, read them as integers and parse those. It fails for lack of
      tokens exactly when the input has no non-whitespace character. */
  function ParseText(input: string): (r: Result<seq<Problem>, ParseError>)
    ensures r == Err(NoTokens) <==> NonSpaceFree(input)
    ensures r.Ok? ==> forall p :: 0 <= p < |r.value| ==> r.value[p].WellFormed()
  {
    var words := Text.Tokenize(input);
    ConcatEmpty(words);
    var values :- ToInts(words);
    ParseTokens(values)
  }

  /** `parse`: empty input leaves the parser alone; otherwise the previous
      problems are discarded and replaced by the ones just parsed, or by
      none when parsing stops. */
  function Parse(parser: Parser, input: string): (r: (Parser, Returned))
    ensures |input| == 0 ==> r == (parser, Nothing)
    ensures |input| > 0 ==> r.1.Problems? || r.1.Thrown?
    ensures r.1.Problems? ==> r.0.problems == r.1.list
    ensures r.1.Problems? ==> forall p :: 0 <= p < |r.1.list| ==> r.1.list[p].WellFormed()
    ensures r.1.Thrown? ==> r.0.problems == []
    ensures r.1.Thrown? ==> (r.1.error == NoTokens <==> NonSpaceFree(input))
    ensures |input| > 0 && NonSpaceFree(input) ==> r.1 == Thrown(NoTokens)
  {
    if |input| == 0 then (parser, Nothing)
    else
      match ParseText(input)
      case Ok(problems) => (Parser(problems), Problems(problems))
      case Err(e) => (Parser([]), Thrown(e))
  }

  /** Only the tokens matter: the same tokens laid out with any
      separating whitespace parse alike. */
  lemma ParseIgnoresLayout(parser: Parser, words: seq<string>, gaps1: seq<string>, gaps2: seq<string>)
    requires |words| > 0
    requires |gaps1| == |words| + 1 && |gaps2| == |words| + 1
    requires forall k :: 0 <= k < |words| ==> Text.IsToken(words[k])
    requires Text.Separating(gaps1) && Text.Separating(gaps2)
    ensures Parse(parser, Text.Spread(words, gaps1)) == Parse(parser, Text.Spread(words, gaps2))
  {
    Text.WhitespaceInsensitive(words, gaps1, gaps2);
    Text.SpreadNonEmpty(words, gaps1);
    Text.SpreadNonEmpty(words, gaps2);
  }

  /** The input holds no token: only whitespace. */
  ghost predicate NonSpaceFree(input: string) {
    Text.NonSpace(input) == ""
  }

  /** Tokens concatenate to nothing only when there are none. */
  lemma ConcatEmpty(words: seq<string>)
    requires forall k :: 0 <= k < |words| ==> Text.IsToken(words[k])
    ensures Text.Concat(words) == "" <==> |words| == 0
  {
    if |words| > 0 {
      assert Text.IsToken(words[0]);
      assert |Text.Concat(words)| >= |words[0]|;
    }
  }
}

=== FILE: results.dfy ===
/** Failure-compatible wrappers shared by the parser and the logger. */
module Results {

  /** A value that may be absent. */
  datatype Option<+T> = None | Some(value: T)

  /** Either a computed value or the error that stopped the computation. */
  datatype Result<+T, +E> = Ok(value: T) | Err(error: E) {

    predicate IsFailure() {
      Err?
    }

    function PropagateFailure<U>(): Result<U, E>
      requires Err?
    {
      Err(error)
    }

    function Extract(): T
      requires Ok?
    {
      value
    }
  }
}

=== FILE: text.dfy ===
/**
  Splitting the problem file into tokens, as `input.match(/\S+/g)` does:
  a token is a maximal run of characters outside JavaScript's `\s` class.
 */
module Text {

  /** The characters JavaScript's `\s` matches: the WhiteSpace and
      LineTerminator code points of ECMAScript (sections 11.2 and 11.3 of
      ECMA-262, 2015 edition). */
  predicate IsSpace(c: char) {
    || c == ' ' || c == '\t' || c == '\n' || c == '\r'
    || c == '\U{000B}' || c == '\U{000C}'
    || c == '\U{00A0}' || c == '\U{1680}'
    || ('\U{2000}' <= c <= '\U{200A}')
    || c == '\U{2028}' || c == '\U{2029}'
    || c == '\U{202F}' || c == '\U{205F}' || c == '\U{3000}' || c == '\U{FEFF}'
  }

  /** A string made of whitespace only (possibly empty). */
  ghost predicate IsBlank(w: string) {
    forall i :: 0 <= i < |w| ==> IsSpace(w[i])
  }

  /** What one match of `\S+` can be: non-empty, no whitespace. */
  ghost predicate IsToken(t: string) {
    |t| > 0 && forall i :: 0 <= i < |t| ==> !IsSpace(t[i])
  }

  /** The concatenation of a sequence of sequences: the tokens of a file
      laid end to end, or the weight rows of a block as they appear in
      the file. */
  function Concat<T>(ss: seq<seq<T>>): seq<T> {
    if |ss| == 0 then [] else ss[0] + Concat(ss[1..])
  }

  /** The characters of `s` that are not whitespace, in order. */
  function NonSpace(s: string): string {
    if |s| == 0 then ""
    else (if IsSpace(s[0]) then "" else [s[0]]) + NonSpace(s[1..])
  }

  /** Length of the run of non-whitespace characters that starts `s`. */
  function WordLength(s: string): (n: nat)
    ensures n <= |s|
    ensures forall i :: 0 <= i < n ==> !IsSpace(s[i])
    ensures n < |s| ==> IsSpace(s[n])
  {
    if |s| == 0 || IsSpace(s[0]) then 0 else 1 + WordLength(s[1..])
  }

  /** The matches of `\S+` in `s`, left to right. Every match is a token,
      and together they hold exactly the non-whitespace characters of `s`. */
  function Tokenize(s: string): (tokens: seq<string>)
    ensures forall k :: 0 <= k < |tokens| ==> IsToken(tokens[k])
    ensures Concat(tokens) == NonSpace(s)
    decreases |s|
  {
    if |s| == 0 then []
    else if IsSpace(s[0]) then Tokenize(s[1..])
    else
      var n := WordLength(s);
      NonSpaceSplit(s, n);
      NonSpaceOfWord(s[..n]);
      [s[..n]] + Tokenize(s[n..])
  }

  lemma {:induction false} NonSpaceSplit(s: string, n: nat)
    requires n <= |s|
    ensures NonSpace(s) == NonSpace(s[..n]) + NonSpace(s[n..])
    decreases n
  {
    if n > 0 {
      NonSpaceSplit(s[1..], n - 1);
      assert s[1..][..n - 1] == s[..n][1..];
      assert s[1..][n - 1..] == s[n..];
    } else {
      assert s[..0] == "";
      assert s[0..] == s;
    }
  }

  lemma {:induction false} NonSpaceOfWord(w: string)
    requires forall i :: 0 <= i < |w| ==> !IsSpace(w[i])
    ensures NonSpace(w) == w
    decreases |w|
  {
    if |w| > 0 {
      NonSpaceOfWord(w[1..]);
    }
  }

  /** `toks` laid out with the whitespace runs of `gaps` around and between
      them: `gaps[0] + toks[0] + gaps[1] + ... + toks[n-1] + gaps[n]`. */
  function Spread(toks: seq<string>, gaps: seq<string>): string
    requires |gaps| == |toks| + 1
  {
    if |toks| == 0 then gaps[0]
    else gaps[0] + toks[0] + Spread(toks[1..], gaps[1..])
  }

  /** Gaps that keep tokens apart: all whitespace, and non-empty wherever
      they separate two tokens. */
  ghost predicate Separating(gaps: seq<string>) {
    && (forall k :: 0 <= k < |gaps| ==> IsBlank(gaps[k]))
    && (forall k :: 0 < k < |gaps| - 1 ==> |gaps[k]| > 0)
  }

  lemma {:induction false} TokenizeSkipsBlank(w: string, s: string)
    requires IsBlank(w)
    ensures Tokenize(w + s) == Tokenize(s)
    decreases |w|
  {
    if |w| > 0 {
      assert (w + s)[1..] == w[1..] + s;
      TokenizeSkipsBlank(w[1..], s);
    } else {
      assert w + s == s;
    }
  }

  lemma {:induction false} WordLengthOfToken(t: string, s: string)
    requires IsToken(t)
    requires |s| == 0 || IsSpace(s[0])
    ensures WordLength(t + s) == |t|
    decreases |t|
  {
    if |t| > 1 {
      assert (t + s)[1..] == t[1..] + s;
      WordLengthOfToken(t[1..], s);
    } else {
      assert (t + s)[1..] == s;
    }
  }

  lemma TokenizeToken(t: string, s: string)
    requires IsToken(t)
    requires |s| == 0 || IsSpace(s[0])
    ensures Tokenize(t + s) == [t] + Tokenize(s)
  {
    WordLengthOfToken(t, s);
    assert (t + s)[..|t|] == t;
    assert (t + s)[|t|..] == s;
  }

  /** Tokenising a layout gives back exactly the laid-out tokens, whatever
      whitespace the gaps hold. */
  lemma {:induction false} TokenizeSpread(toks: seq<string>, gaps: seq<string>)
    requires |gaps| == |toks| + 1
    requires forall k :: 0 <= k < |toks| ==> IsToken(toks[k])
    requires Separating(gaps)
    ensures Tokenize(Spread(toks, gaps)) == toks
    decreases |toks|
  {
    if |toks| == 0 {
      assert IsBlank(gaps[0]);
      TokenizeSkipsBlank(gaps[0], "");
      assert gaps[0] + "" == gaps[0];
    } else {
      var rest := Spread(toks[1..], gaps[1..]);
      assert Separating(gaps[1..]) by {
        forall k | 0 <= k < |gaps[1..]| ensures IsBlank(gaps[1..][k]) {
          assert gaps[1..][k] == gaps[k + 1];
        }
      }
      TokenizeSpread(toks[1..], gaps[1..]);
      if |toks| > 1 {
        assert IsBlank(gaps[1]) && |gaps[1]| > 0;
        assert rest == gaps[1] + (toks[1] + Spread(toks[2..], gaps[2..]));
        assert rest[0] == gaps[1][0];
      } else {
        assert rest == gaps[1];
        assert IsBlank(gaps[1]);
      }
      TokenizeToken(toks[0], rest);
      assert IsBlank(gaps[0]);
      TokenizeSkipsBlank(gaps[0], toks[0] + rest);
      assert Spread(toks, gaps) == gaps[0] + (toks[0] + rest);
    }
  }

  lemma SpreadNonEmpty(toks: seq<string>, gaps: seq<string>)
    requires |gaps| == |toks| + 1
    requires |toks| > 0 && |toks[0]| > 0
    ensures |Spread(toks, gaps)| > 0
  {
  }

  /** Whitespace-insensitivity: two layouts of the same tokens tokenise
      alike, however much whitespace of whatever kind separates them. */
  lemma WhitespaceInsensitive(toks: seq<string>, gaps1: seq<string>, gaps2: seq<string>)
    requires |gaps1| == |toks| + 1 && |gaps2| == |toks| + 1
    requires forall k :: 0 <= k < |toks| ==> IsToken(toks[k])
    requires Separating(gaps1) && Separating(gaps2)
    ensures Tokenize(Spread(toks, gaps1)) == Tokenize(Spread(toks, gaps2)) == toks
  {
    TokenizeSpread(toks, gaps1);
    TokenizeSpread(toks, gaps2);
  }
}
